=== FILE: README.md ===
# CivicTrack client logic in Dafny

This project models the decision and state logic of the CivicTrack web client. CivicTrack is a civic-issue reporter: citizens report problems with a photo and a map location, and administrators review and resolve them. The model strips away the React views and keeps these parts:

- **Route gates** (`Routes`, from `App.jsx`). `PrivateRoute` guards the user dashboard using the authentication flags. `PrivateRouteAdmin` guards the admin dashboard using the token and role in the session store. The route table is modelled too, including which pages are open to everyone.
- **Session store** (`Session`). `localStorage` is modelled as a map from strings to strings. Login writes the four session keys. The admin dashboard's logout removes all four keys. The user dashboard's logout removes three and leaves `userRole`.
- **Login page** (`Login`). This covers the validator, including the unanchored `\S+@\S+\.\S+` email test. The regex is stated literally and proved equal to a direct test. It also covers typing into a field, and the submit step: session write, landing page and form reset.
- **Report page** (`ReportIssue`). This covers the issue draft, its validator, and the field-wise updates: text inputs, the image, a map click, geolocation and picking a place-search result. It also covers the short-query rule of the place search, the guarded submit, and the initial/reset draft.
- **Admin dashboard** (`AdminDashboard`). The inline editor is a small state machine: start, choose status, edit notes, save (success or failure) and cancel. Deleting an issue removes it from the in-memory list.
- **Shared display rules** (`Issues`). These are the status-to-colour split and the two image-URL normalisers. The dashboards replace every backslash; the home page replaces only the first one.
- **Rendered lists** (`UserDashboard`, `Home`). The user dashboard's list has an empty-list placeholder and shows the resolution block only when there are notes. The home page renders a card for every issue and a map marker for every issue with a usable location.
- **Navigation bar** (`Navbar`). The "Civic Track" brand link is always shown. The menu links depend on the role and the token. The mobile menu has an open/closed flag: menu links close it, and the brand link leaves it alone.

JavaScript details are stated explicitly in `Js`:
- Where the code only tests a value's presence or truthiness, `null` and `undefined` both become `None`. The user fields of the login reply keep the difference, because `setItem` turns a missing value into the text `"undefined"` and `null` into `"null"`.
- A string is truthy only when present and non-empty.
- A number is truthy only when present and non-zero.
- `\s` and `trim` use ECMA-262's white-space and line-terminator set.
- A string's `length` counts UTF-16 code units, so a character outside the Basic Multilingual Plane counts twice.
- `startsWith` has its usual meaning.

`Seqs` holds the one list operation that drops entries: order-preserving filtering. Mapping each issue to a card, row or marker is written as a sequence comprehension. It comes with its length, concatenation, idempotence and subsequence lemmas.

In these places the code does something easy to miss; the model follows the code:
- The user dashboard's logout leaves `userRole` in the store. `Navbar.AfterUserLogoutOfAdminSession` shows the result for a stale "admin" role: the menu offers only the admin link, so the bar shows just the brand link and the admin link, and the admin link now redirects to /login.
- Saving an edit sends only `status` and `resolutionNotes`. No assignee is sent.
- Only `PrivateRoute` has a loading state. The admin gate decides immediately.
- The report validator checks only that the category is non-empty, not that it is one of the six listed categories. It rejects a zero coordinate as missing.
- A login reply without a token, message or user is dropped silently. The form is still cleared.

## Model

| member | source | states |
|---|---|---|
| Routes.PrivateRoute | client/src/App.jsx:22-25 | Loading placeholder exactly while auth is loading; after loading, the page iff authenticated, otherwise a redirect to /login; never "Not Authorized" |
| Routes.PrivateRouteAdmin | client/src/App.jsx:27-39 | Redirect to /login iff the token is falsy, whatever the role; the page iff there is a token and the role is "admin"; "Not Authorized" iff there is a token and any other or missing role; never a loading placeholder |
| Routes.Resolve | client/src/App.jsx:50-60 | Open pages render themselves; the user dashboard goes through PrivateRoute; the admin dashboard goes through PrivateRouteAdmin |
| Routes.ResolveShowsOnlyItsPage | client/src/App.jsx:50-60 | A route can only ever render its own page |
| Routes.PathsDistinct | client/src/App.jsx:51-59 | The six route paths are pairwise distinct |
| Routes.OpenRoutesAlwaysRender | client/src/App.jsx:51-54 | "/", "/login", "/register" and "/report" render their page for every session and auth state |
| Routes.GatesIgnoreOtherInputs | client/src/App.jsx:22-39 | The admin gate's answer does not depend on the auth flags; the user gate's answer does not depend on the session store or role |
| Routes.NonAdminNeverSeesAdminPage | client/src/App.jsx:31-37 | With any role other than "admin", the admin dashboard is a redirect or "Not Authorized", never the page |
| Session.WriteLogin | client/src/pages/Login.jsx:43-48 | All four session keys hold the token, name, email and role; a missing reply field is stored as "undefined" and a null one as "null"; other entries are untouched |
| Session.StringifyIsAdminIff | client/src/pages/Login.jsx:48 | The stored role reads "admin" exactly when the reply's role was the string "admin"; neither a missing nor a null role is stored as that text |
| Session.AdminLogout | client/src/pages/AdminDashboard.jsx:18-22 | Exactly the four session keys are removed; every other entry is kept |
| Session.UserLogout | client/src/pages/UserDashboard.jsx:29-32 | Token, name and email are removed; userRole and every other entry are kept |
| Session.AdminLogoutUndoesLogin | client/src/pages/AdminDashboard.jsx:18-22 | Login followed by the admin logout leaves the same store as the logout alone, with no session key left |
| Session.UserLogoutKeepsLoginRole | client/src/pages/UserDashboard.jsx:29-32 | Login followed by the user logout removes the token but still holds the role written at login |
| Session.LogoutsIdempotent | client/src/pages/UserDashboard.jsx:29-32 | Each logout is idempotent; an admin logout after a user logout equals the admin logout alone |
| Login.EmailShapedIffRegex | client/src/pages/Login.jsx:14 | The direct position test agrees with the unanchored `\S+@\S+\.\S+` match on every string, in both directions |
| Login.Validate | client/src/pages/Login.jsx:11-18 | Email error iff the email is empty or has no pattern match, with "Email is required" for empty and "Email is invalid" otherwise; password error iff the password is empty |
| Login.ValidateEmptyIff | client/src/pages/Login.jsx:11-18 | No errors iff the email is non-empty and matches and the password is non-empty |
| Login.EmailMessagesExclusive | client/src/pages/Login.jsx:13-15 | The email error is "Email is required" exactly when the email is empty, so the two messages exclude each other |
| Login.EmailSamples | client/src/pages/Login.jsx:14 | The pattern accepts "a@b.c" and, unanchored, "x a@b.c y"; it rejects "a@b", "@b.c" and "a@.c" |
| Login.HandleChange | client/src/pages/Login.jsx:20-23 | Only the named field changes, and its error becomes the empty (hidden) message; the other field and its error are unchanged |
| Login.LandingPage | client/src/pages/Login.jsx:50 | The admin dashboard iff the role is "admin", else /report |
| Login.Submit | client/src/pages/Login.jsx:25-59 | Errors shown are the validation result; the request is sent iff there are none; the session is written only for an accepted reply (token, message and user present) and is unchanged otherwise; navigation only after acceptance; the form is cleared iff a reply came back |
| Login.AcceptedLoginWritesAllKeys | client/src/pages/Login.jsx:43-48 | After an accepted login all four keys are present, so a token is never stored without a role |
| Login.LoginThenAdminGate | client/src/pages/Login.jsx:43-50 | After an accepted login the admin gate renders the admin dashboard iff the reply's role is "admin", and answers "Not Authorized" otherwise |
| ReportIssue.Validate | client/src/pages/ReportIssue.jsx:84-93 | A key with its message for exactly those of title, description, category and image that are empty or missing; a location key iff either coordinate is zero |
| ReportIssue.ValidateEmptyIffComplete | client/src/pages/ReportIssue.jsx:84-93 | No errors iff every field is present and both coordinates are non-zero |
| ReportIssue.HandleChange | client/src/pages/ReportIssue.jsx:95-97 | The named input takes the value; the other text fields, the image and the coordinates are unchanged |
| ReportIssue.HandleImageChange | client/src/pages/ReportIssue.jsx:99-103 | The image becomes the picked file, or none; nothing else changes |
| ReportIssue.SetLocation | client/src/pages/ReportIssue.jsx:105-107 | Both coordinates are overwritten (the map click of LocationPicker); title, description, category and image are unchanged |
| ReportIssue.DetectLocation | client/src/pages/ReportIssue.jsx:109-129 | A position overwrites both coordinates and reports success; a refusal or missing capability leaves the draft unchanged and reports an error |
| ReportIssue.HandleSearch | client/src/pages/ReportIssue.jsx:53-72 | The box shows the input; a lookup happens iff the trimmed input is at least 3 UTF-16 code units long; without one the results are cleared; a failed lookup gives no results |
| ReportIssue.BlankSearchNeverLooksUp | client/src/pages/ReportIssue.jsx:55-58 | Input made only of white space never reaches the service and clears the results |
| ReportIssue.SpaceFreeSearchLooksUp | client/src/pages/ReportIssue.jsx:55-58 | Three or more characters without white space always trigger a lookup |
| ReportIssue.TwoEmojiSearchLooksUp | client/src/pages/ReportIssue.jsx:55 | Two emoji outside the Basic Multilingual Plane are four code units and trigger a lookup; two plain letters do not |
| ReportIssue.PickResult | client/src/pages/ReportIssue.jsx:74-82 | Both coordinates come from the place, the box shows its display name, the results empty, and the other draft fields are unchanged |
| ReportIssue.BearerHeader | client/src/pages/ReportIssue.jsx:146-154 | The header is "Bearer " followed by the token, or by "null" when there is no token |
| ReportIssue.Submit | client/src/pages/ReportIssue.jsx:131-177 | Errors shown are the validation result; the request is sent iff the draft is complete and carries exactly its fields; after a created reply, and only then, the draft resets to the initial form and the page navigates to the user dashboard |
| ReportIssue.InitialFormShape | client/src/pages/ReportIssue.jsx:37-44 | The initial draft has empty text, category "Garbage", no image and coordinates (28.6448, 77.216721); it is refused for exactly title, description and image |
| ReportIssue.ResetIsInitial | client/src/pages/ReportIssue.jsx:164-171 | The post-success reset equals the initial draft, and submitting it sends nothing |
| ReportIssue.LastLocationWins | client/src/pages/ReportIssue.jsx:105-107 | Map clicks and search picks overwrite each other, and the last one applied decides the coordinates |
| Js.Trim | client/src/pages/ReportIssue.jsx:55 | The result is the slice of the input between white-space-only ends; it is empty iff the input is all white space; a non-empty result neither starts nor ends with white space |
| Js.Utf16Length | client/src/pages/ReportIssue.jsx:55 | The code-unit length lies between the character count and twice it |
| Js.Utf16LengthBmp | client/src/pages/ReportIssue.jsx:55 | The code-unit length equals the character count iff every character is in the Basic Multilingual Plane |
| Issues.StatusColourOf | client/src/pages/UserDashboard.jsx:69-77 | Green iff "Resolved", yellow iff "In Progress", red for every other status |
| Issues.StatusOptionColours | client/src/pages/AdminDashboard.jsx:4 | The three status options map to red, yellow and green respectively |
| Issues.ReplaceAll | client/src/pages/UserDashboard.jsx:86-89 | Same length; each backslash becomes "/" and every other character is kept |
| Issues.ReplaceFirst | client/src/pages/Home.jsx:38 | Same length; only the first backslash becomes "/" and every other character is kept |
| Issues.ImageSrc | client/src/pages/AdminDashboard.jsx:136-138 | "http"-prefixed URLs pass through; otherwise the host prefix plus the path with every backslash replaced, leaving no backslash after the prefix |
| Issues.ImageSrcFirstOnly | client/src/pages/Home.jsx:36-38 | "http"-prefixed URLs pass through; otherwise the host prefix plus the path with only its first backslash replaced |
| Issues.ImageSrcIdempotent | client/src/pages/AdminDashboard.jsx:136-138 | A computed src starts with "http", so normalising it again changes nothing |
| Issues.FirstOnlyAgreesOnSingleBackslash | client/src/pages/Home.jsx:36-38 | On paths with at most one backslash the home page's normaliser equals the dashboards' |
| Issues.FirstOnlyDiffersOnTwoBackslashes | client/src/pages/Home.jsx:38 | On "a\b\c" the home page's src keeps a backslash and the dashboards' does not |
| Issues.ImageFor | client/src/pages/UserDashboard.jsx:81-94 | An image is shown iff the path is present and non-empty, and its src is the normalised path |
| AdminDashboard.StartEdit | client/src/pages/AdminDashboard.jsx:44-48 | Editing becomes the issue's id; the pending status is the issue's status; the pending notes are its notes, or "" when they are missing or empty |
| AdminDashboard.CancelEdit | client/src/pages/AdminDashboard.jsx:50-54 | Editing none, notes "", status "" from any state |
| AdminDashboard.CancelFromAnyState | client/src/pages/AdminDashboard.jsx:50-54 | Cancel always gives the idle editor; start followed by cancel equals never starting |
| AdminDashboard.ChooseStatus | client/src/pages/AdminDashboard.jsx:147-155 | The pending status becomes the chosen option; the id and notes are unchanged |
| AdminDashboard.EditNotes | client/src/pages/AdminDashboard.jsx:172-176 | The pending notes become the typed text; the id and status are unchanged |
| AdminDashboard.SaveChanges | client/src/pages/AdminDashboard.jsx:57-75 | The request carries the id and exactly the pending status and notes; success idles the editor and refetches; otherwise the id and pending values are kept; "Update failed" is alerted iff a reply came back that is not ok, and a rejected request alerts nothing |
| AdminDashboard.NotesOnlyEditKeepsStatus | client/src/pages/AdminDashboard.jsx:44-67 | Opening an issue and changing only the notes sends the issue's own status back |
| AdminDashboard.RetryAfterFailureResends | client/src/pages/AdminDashboard.jsx:58-74 | After a refused or rejected save, saving again sends the same request |
| AdminDashboard.RemoveId | client/src/pages/AdminDashboard.jsx:87 | The result holds exactly the issues whose id differs from the deleted one |
| AdminDashboard.DeleteIssue | client/src/pages/AdminDashboard.jsx:78-91 | A request is made iff the delete is confirmed; the list changes only after a confirmed, successful delete, and then by removing that id; "Delete failed" is alerted iff a confirmed delete gets a reply that is not ok, and a rejected request alerts nothing |
| AdminDashboard.DeleteRemovesExactlyThatId | client/src/pages/AdminDashboard.jsx:86-87 | A successful delete removes every issue with that id and nothing else, shrinks the list by the number removed, and leaves the survivors as a subsequence in their original order |
| AdminDashboard.RemoveIdAppend | client/src/pages/AdminDashboard.jsx:87 | Removing from a concatenation is removing from each part, in order |
| AdminDashboard.DeleteAbsentOrTwice | client/src/pages/AdminDashboard.jsx:87 | Removing an id that no issue has changes nothing; removing the same id twice equals removing it once |
| UserDashboard.CardOf | client/src/pages/UserDashboard.jsx:61-104 | A card shows the issue's own title, description, category and status, the status colour, an image iff the path is non-empty (every backslash normalised), and a resolution block iff the notes are non-empty |
| UserDashboard.View | client/src/pages/UserDashboard.jsx:55-106 | The placeholder is shown iff the list is empty, and then alone; otherwise there is one card per issue, in order |
| UserDashboard.CardsShowNotes | client/src/pages/UserDashboard.jsx:61-104 | Over the cards of a list, the resolution blocks shown are counted exactly by the issues with non-empty notes |
| UserDashboard.ResolutionBlocksMatchNotes | client/src/pages/UserDashboard.jsx:55-106 | The rendered list, placeholder included, shows as many resolution blocks as there are issues with non-empty notes |
| Home.CardOf | client/src/pages/Home.jsx:30-67 | A card shows the issue's own title, description, category and status, the shared status colour, and an image iff the path is non-empty, normalised at its first backslash only |
| Home.ListView | client/src/pages/Home.jsx:30 | One card per issue, in order, nothing dropped |
| Home.MarkerOf | client/src/pages/Home.jsx:86-116 | A marker sits at the issue's own non-zero coordinates, and its popup shows the same image as the issue's list card |
| Home.Markers | client/src/pages/Home.jsx:86-89 | There are as many markers as issues with a location and two truthy coordinates |
| Home.MarkersOfOne | client/src/pages/Home.jsx:86-89 | A single issue yields its marker iff it is eligible, and nothing otherwise |
| Home.MarkersAppend | client/src/pages/Home.jsx:86-89 | The markers of a concatenation are the markers of each part, in order |
| Home.MarkersMatchEligibleIssues | client/src/pages/Home.jsx:86-89 | Every eligible issue has its marker, and every marker belongs to an eligible issue |
| Navbar.Links | client/src/components/Navbar.jsx:61-112 | Role "admin" gives exactly the admin link, whatever the token; any other role gives exactly Home, Report Issue and User Dashboard when the token is truthy, and exactly Home, Report Issue, Login and Register, in that order, when it is not |
| Navbar.Toggle | client/src/components/Navbar.jsx:25 | The menu button flips the open flag |
| Navbar.BarLinks | client/src/components/Navbar.jsx:17-112 | The bar shows the brand link to the home page first, for every session, followed by the menu links; the brand link is not one of the menu links |
| Navbar.FollowLink | client/src/components/Navbar.jsx:17-105 | Following any menu link leaves the menu closed; following the brand link, which has no click handler, leaves the menu as it was |
| Navbar.ToggleTwice | client/src/components/Navbar.jsx:25 | Toggling twice restores the menu |
| Navbar.AdminLinksOpen | client/src/components/Navbar.jsx:17-67 | With role "admin" and a token, the bar shows exactly the brand link and the admin link, and each opens its page |
| Navbar.AfterAdminLogout | client/src/components/Navbar.jsx:17-110 | After the admin logout the menu offers Home, Report Issue, Login and Register, so the bar shows the brand link and those four; the admin dashboard redirects to /login |
| Navbar.AfterUserLogoutOfAdminSession | client/src/components/Navbar.jsx:17-67 | After the user logout of a session with role "admin", the menu still offers only the admin link, so the bar shows the brand link and the admin link; the admin link redirects to /login |

## Left out

- The network is not modelled. That covers every `fetch`, HTTP status handling and JSON parsing. A reply becomes an argument: a parsed login reply or None, a created/refused/thrown tag, or an ok/not-ok/rejected outcome.
- `localStorage` is modelled only as a value, not as browser storage shared across tabs.
- `navigate`, `setTimeout`, `window.location.reload`, `alert` and toasts are effects with no logic of their own. The model records the navigation after a login and after a created report, the geolocation notice, and the admin dashboard's "Update failed" and "Delete failed" alerts. It does not record the success and error toasts of the login and report submits, or the redirect to /login and the hard reload after either logout.
- `window.confirm` is not modelled; its answer is a boolean argument.
- Leaflet rendering, browser geolocation and the Nominatim service are foreign calls. Their results are arguments.
- `parseFloat` and `Number` are not modelled. Coordinates are reals, and NaN (also falsy in JavaScript) is not represented.
- JSX markup, CSS classes other than the status colour, and the image preview made with `URL.createObjectURL` are left out.
- ReportIssue.HandleSearch: the model applies each answer right after its own keystroke, in the order typed. In the page every keystroke starts its own lookup with no sequencing. A late answer to an earlier query can therefore overwrite results that a later, too-short query cleared, and that interleaving is not represented.
- React's asynchronous state batching is not modelled. Handlers spread the render-time `form`, so a handler that runs on a stale copy could undo an earlier change. The model applies each handler to the current draft.
- The `loading`, `searching` and `submitting` flags and their placeholders are view state and are not modelled.
- `RefreshHandler` and `Register` are not part of this model. How `isAuthenticated`/`isAuthLoading` get set is therefore an argument (`Routes.AuthState`).
- React Router path matching (case-insensitive, trailing slashes) is left out. Pages are a datatype, and an unknown path is not representable.
- Filter and sort query construction and assignee editing do not occur in these files, so they are not modelled. The admin list fetch takes no parameters.
- The admin list refetch after a save is recorded only as a flag; the fetched list is outside the model.
- The dashboards' "Welcome"/"Email" headers and their "-" fallbacks are plain display and are not modelled.

=== FILE: admin.dfy ===
/** The admin dashboard (AdminDashboard.jsx): the inline editor over the
    issue table and deleting an issue from the in-memory list. The PATCH
    and DELETE requests are outside the model; whether they succeeded is an
    argument, as is the answer to the confirmation dialog. */
module AdminDashboard {
  import opened Js
  import Issues
  import Seqs

  /** The editor: the id of the issue being edited (or none) and the
      pending status and resolution notes. */
  datatype EditState = EditState(editing: Option<string>, resolutionNotes: string, status: string)

  /** No row is being edited. */
  const Idle := EditState(None, "", "")

  /** `startEdit`: editing moves to this issue, seeded with its status and
      its resolution notes ("" when it has none). Whatever was being edited
      before is dropped. */
  function StartEdit(issue: Issues.Issue): (e: EditState)
    ensures e.editing == Some(issue.id)
    ensures e.status == issue.status
    ensures Truthy(issue.resolutionNotes) ==> e.resolutionNotes == issue.resolutionNotes.value
    ensures !Truthy(issue.resolutionNotes) ==> e.resolutionNotes == ""
  {
    EditState(Some(issue.id), if Truthy(issue.resolutionNotes) then issue.resolutionNotes.value else "", issue.status)
  }

  /** `cancelEdit`: back to the idle editor from any state. */
  function CancelEdit(e: EditState): (r: EditState)
    ensures r.editing == None && r.resolutionNotes == "" && r.status == ""
  {
    Idle
  }

  /** Picking an entry of the status select: only the pending status
      changes. */
  function ChooseStatus(e: EditState, choice: string): (r: EditState)
    requires choice in Issues.StatusOptions
    ensures r.status == choice && r.status in Issues.StatusOptions
    ensures r.editing == e.editing && r.resolutionNotes == e.resolutionNotes
  {
    e.(status := choice)
  }

  /** Typing into the notes box: only the pending notes change. */
  function EditNotes(e: EditState, text: string): (r: EditState)
    ensures r.resolutionNotes == text
    ensures r.editing == e.editing && r.status == e.status
  {
    e.(resolutionNotes := text)
  }

  /** The PATCH request: the issue id in the path and a body of exactly the
      pending status and notes. */
  datatype PatchRequest = PatchRequest(id: string, status: string, resolutionNotes: string)

  /** How a PATCH or DELETE request ended: a 2xx reply, another reply, or a
      rejected `fetch`. The handlers have no `catch`, so a rejection ends
      the handler before anything is changed or alerted. */
  datatype Outcome = Ok | NotOk | Threw

  datatype SaveStep = SaveStep(state: EditState, request: PatchRequest, refetch: bool,
                               alert: Option<string>)

  /** `saveChanges(id)`: the request carries the pending values. On success
      the list is fetched again and the editor goes idle; on any other
      reply an "Update failed" alert is shown; when the request is rejected
      nothing is alerted. Unless it succeeded, the editor keeps the id and
      the pending values for a retry or a cancel. */
  function SaveChanges(e: EditState, id: string, outcome: Outcome): (r: SaveStep)
    ensures r.request.id == id
    ensures r.request.status == e.status && r.request.resolutionNotes == e.resolutionNotes
    ensures outcome == Ok ==> r.state == Idle && r.refetch
    ensures outcome != Ok ==> r.state == e && !r.refetch
    ensures r.alert.Some? <==> outcome == NotOk
    ensures r.alert.Some? ==> r.alert.value == "Update failed"
  {
    var req := PatchRequest(id, e.status, e.resolutionNotes);
    match outcome
    case Ok => SaveStep(CancelEdit(e), req, true, None)
    case NotOk => SaveStep(e, req, false, Some("Update failed"))
    case Threw => SaveStep(e, req, false, None)
  }

  /** Cancelling ends any edit; starting an edit then cancelling is the
      same as never starting. */
  lemma CancelFromAnyState(e: EditState, issue: Issues.Issue)
    ensures CancelEdit(e) == Idle
    ensures CancelEdit(StartEdit(issue)) == Idle
  {
  }

  /** An admin who opens an issue and changes only the notes sends the
      issue's own status back unchanged. */
  lemma NotesOnlyEditKeepsStatus(issue: Issues.Issue, notes: string, outcome: Outcome)
    ensures SaveChanges(EditNotes(StartEdit(issue), notes), issue.id, outcome).request
            == PatchRequest(issue.id, issue.status, notes)
  {
  }

  /** After a failed or rejected save, retrying sends the very same
      request. */
  lemma RetryAfterFailureResends(e: EditState, id: string, failed: Outcome, retry: Outcome)
    requires failed != Ok
    ensures SaveChanges(SaveChanges(e, id, failed).state, id, retry).request == SaveChanges(e, id, failed).request
  {
  }

  /** The filter test of a successful delete: keep issues with another id. */
  function OtherId(id: string): Issues.Issue -> bool {
    (i: Issues.Issue) => i.id != id
  }

  /** The test for the issues a delete removes. */
  function SameId(id: string): Issues.Issue -> bool {
    (i: Issues.Issue) => i.id == id
  }

  /** `issues.filter((i) => i._id !== id)`. */
  function RemoveId(issues: seq<Issues.Issue>, id: string): (r: seq<Issues.Issue>)
    ensures forall i :: i in r <==> i in issues && i.id != id
  {
    Seqs.Filter(OtherId(id), issues)
  }

  datatype DeleteStep = DeleteStep(issues: seq<Issues.Issue>, requested: bool, alert: Option<string>)

  /** `deleteIssue(id)`: nothing is requested unless the admin confirms; a
      confirmed, successful delete drops the issue from the list; any other
      reply leaves the list as it was and shows a "Delete failed" alert; a
      rejected request leaves the list and alerts nothing. */
  function DeleteIssue(issues: seq<Issues.Issue>, id: string, confirmed: bool, outcome: Outcome): (r: DeleteStep)
    ensures r.requested <==> confirmed
    ensures !(confirmed && outcome == Ok) ==> r.issues == issues
    ensures confirmed && outcome == Ok ==> r.issues == RemoveId(issues, id)
    ensures r.alert.Some? <==> confirmed && outcome == NotOk
    ensures r.alert.Some? ==> r.alert.value == "Delete failed"
  {
    if !confirmed then DeleteStep(issues, false, None)
    else match outcome
      case Ok => DeleteStep(RemoveId(issues, id), true, None)
      case NotOk => DeleteStep(issues, true, Some("Delete failed"))
      case Threw => DeleteStep(issues, true, None)
  }

  /** A successful delete removes every issue with that id and nothing
      else, shrinks the list by the number removed, and keeps the order of
      the rest. */
  lemma DeleteRemovesExactlyThatId(issues: seq<Issues.Issue>, id: string)
    ensures var r := DeleteIssue(issues, id, true, Ok).issues;
      && (forall i :: i in r <==> i in issues && i.id != id)
      && |r| == |issues| - Seqs.CountWhere(SameId(id), issues)
      && Seqs.Subsequence(r, issues)
  {
    Seqs.FilterLength(OtherId(id), issues);
    Seqs.CountSplit(OtherId(id), SameId(id), issues);
    Seqs.FilterIsSubsequence(OtherId(id), issues);
  }

  /** Removal works piecewise: removing from a concatenation removes from
      each part, so the survivors keep their relative order. */
  lemma RemoveIdAppend(a: seq<Issues.Issue>, b: seq<Issues.Issue>, id: string)
    ensures RemoveId(a + b, id) == RemoveId(a, id) + RemoveId(b, id)
  {
    Seqs.FilterAppend(OtherId(id), a, b);
  }

  /** Deleting an id no issue has, or deleting the same id twice, changes
      nothing more. */
  lemma DeleteAbsentOrTwice(issues: seq<Issues.Issue>, id: string)
    ensures (forall i :: i in issues ==> i.id != id) ==> RemoveId(issues, id) == issues
    ensures RemoveId(RemoveId(issues, id), id) == RemoveId(issues, id)
  {
    if forall i :: i in issues ==> i.id != id {
      Seqs.FilterKeepsAll(OtherId(id), issues);
    }
    Seqs.FilterIdempotent(OtherId(id), issues);
  }
}

=== FILE: home.dfy ===
/** The public home page (Home.jsx): every issue as a list card and, for
    the issues that have a usable location, a marker on the map. The fetch
    and the map widget are outside the model. */
module Home {
  import opened Js
  import Issues
  import Seqs

  /** What one list card shows. */
  datatype Card = Card(id: string, title: string, description: string, category: string,
                       status: string, colour: Issues.StatusColour, image: Option<string>)

  /** One issue's card, with the home page's normaliser that turns only the
      first backslash of a path into "/". */
  function CardOf(issue: Issues.Issue): (c: Card)
    ensures c.id == issue.id && c.status == issue.status
    ensures c.title == issue.title && c.description == issue.description && c.category == issue.category
    ensures c.colour == Issues.StatusColourOf(issue.status)
    ensures c.image.Some? <==> Truthy(issue.imageURL)
    ensures c.image.Some? ==> c.image.value == Issues.ImageSrcFirstOnly(issue.imageURL.value)
  {
    Card(issue.id, issue.title, issue.description, issue.category, issue.status,
         Issues.StatusColourOf(issue.status),
         Issues.ImageFor(issue.imageURL, Issues.ImageSrcFirstOnly))
  }

  /** The list view: one card per issue, in order, with nothing dropped. */
  function ListView(issues: seq<Issues.Issue>): (v: seq<Card>)
    ensures |v| == |issues|
    ensures forall k :: 0 <= k < |issues| ==> v[k] == CardOf(issues[k])
  {
    seq(|issues|, k requires 0 <= k < |issues| => CardOf(issues[k]))
  }

  /** `issue.location && issue.location.latitude && issue.location.longitude`:
      a missing location, a missing coordinate and a zero coordinate all
      keep an issue off the map. */
  predicate HasMarker(issue: Issues.Issue) {
    && issue.location.Some?
    && TruthyNumber(issue.location.value.latitude)
    && TruthyNumber(issue.location.value.longitude)
  }

  /** A map marker: its position and the image its popup shows. */
  datatype Marker = Marker(id: string, latitude: real, longitude: real, image: Option<string>)

  /** The marker of an eligible issue: at its coordinates, with the popup
      image the list card shows. */
  function MarkerOf(issue: Issues.Issue): (m: Marker)
    requires HasMarker(issue)
    ensures m.id == issue.id
    ensures m.image == CardOf(issue).image
    ensures m.latitude != 0.0 && m.longitude != 0.0
    ensures Some(m.latitude) == issue.location.value.latitude
    ensures Some(m.longitude) == issue.location.value.longitude
  {
    var loc := issue.location.value;
    Marker(issue.id, loc.latitude.value, loc.longitude.value,
           Issues.ImageFor(issue.imageURL, Issues.ImageSrcFirstOnly))
  }

  /** The markers: one per eligible issue, in the order of the issues. */
  function Markers(issues: seq<Issues.Issue>): (ms: seq<Marker>)
    ensures |ms| == Seqs.CountWhere(HasMarker, issues)
  {
    var shown := Seqs.Filter(HasMarker, issues);
    Seqs.FilterLength(HasMarker, issues);
    seq(|shown|, k requires 0 <= k < |shown| => MarkerOf(shown[k]))
  }

  /* Markers are the eligible issues' markers, position by position. */
  lemma MarkersAt(issues: seq<Issues.Issue>)
    ensures var shown := Seqs.Filter(HasMarker, issues);
      && |Markers(issues)| == |shown|
      && forall k :: 0 <= k < |shown| ==> HasMarker(shown[k]) && Markers(issues)[k] == MarkerOf(shown[k])
  {
  }

  /** A single issue yields its marker when eligible and nothing otherwise. */
  lemma MarkersOfOne(issue: Issues.Issue)
    ensures Markers([issue]) == if HasMarker(issue) then [MarkerOf(issue)] else []
  {
    assert [issue][1..] == [];
    MarkersAt([issue]);
  }

  /** Markers of a concatenation are the markers of each part, in order;
      with `MarkersOfOne` this pins down the marker list of every issue
      list. */
  lemma MarkersAppend(a: seq<Issues.Issue>, b: seq<Issues.Issue>)
    ensures Markers(a + b) == Markers(a) + Markers(b)
  {
    var fa := Seqs.Filter(HasMarker, a);
    var fb := Seqs.Filter(HasMarker, b);
    Seqs.FilterAppend(HasMarker, a, b);
    MarkersAt(a);
    MarkersAt(b);
    MarkersAt(a + b);
    var m := Markers(a + b);
    var n := Markers(a) + Markers(b);
    forall k | 0 <= k < |m| ensures m[k] == n[k] {
      if k < |fa| {
        assert (fa + fb)[k] == fa[k];
      } else {
        assert (fa + fb)[k] == fb[k - |fa|];
      }
    }
  }

  /** Every eligible issue has its marker on the map and every marker
      belongs to an eligible issue. */
  lemma MarkersMatchEligibleIssues(issues: seq<Issues.Issue>)
    ensures forall i :: i in issues && HasMarker(i) ==> MarkerOf(i) in Markers(issues)
    ensures forall k :: 0 <= k < |Markers(issues)| ==>
      exists i :: i in issues && HasMarker(i) && Markers(issues)[k] == MarkerOf(i)
  {
    var shown := Seqs.Filter(HasMarker, issues);
    MarkersAt(issues);
    forall i | i in issues && HasMarker(i) ensures MarkerOf(i) in Markers(issues) {
      var k :| 0 <= k < |shown| && shown[k] == i;
      assert Markers(issues)[k] == MarkerOf(i);
    }
    forall k | 0 <= k < |Markers(issues)|
      ensures exists i :: i in issues && HasMarker(i) && Markers(issues)[k] == MarkerOf(i)
    {
      var i := shown[k];
      assert i in shown;
      assert i in issues && HasMarker(i) && Markers(issues)[k] == MarkerOf(i);
    }
  }
}

=== FILE: issues.dfy ===
/** The issue record as the pages receive it from the server, and the
    display rules the pages share: the colour of a status and the `src`
    an image path is turned into. */
module Issues {
  import opened Js
  import Seqs

  /** The `location` sub-record; a coordinate may be missing. */
  datatype Location = Location(latitude: Option<real>, longitude: Option<real>)

  /** One issue as listed by the server (`_id` is `id`). Properties the
      pages may find missing are optional. */
  datatype Issue = Issue(id: string, title: string, description: string, category: string,
                         imageURL: Option<string>, status: string,
                         resolutionNotes: Option<string>, location: Option<Location>)

  /** The status options the admin can choose from, in order. */
  const StatusOptions: seq<string> := ["Pending", "In Progress", "Resolved"]

  /** The colour class a status is shown with. */
  datatype StatusColour = Green | Yellow | Red

  /** The three-way split used by every page: green for "Resolved", yellow
      for "In Progress", red for any other text. */
  function StatusColourOf(status: string): (c: StatusColour)
    ensures c == Green <==> status == "Resolved"
    ensures c == Yellow <==> status == "In Progress"
    ensures c == Red <==> status != "Resolved" && status != "In Progress"
  {
    if status == "Resolved" then Green
    else if status == "In Progress" then Yellow
    else Red
  }

  /** The three status options get three different colours, "Pending"
      the red of every unknown status. */
  lemma StatusOptionColours()
    ensures StatusColourOf(StatusOptions[0]) == Red
    ensures StatusColourOf(StatusOptions[1]) == Yellow
    ensures StatusColourOf(StatusOptions[2]) == Green
  {
  }

  /** The server origin prefixed to stored image paths. */
  const Host := "http://localhost:8080/"

  const Backslash: char := '\\'

  predicate IsBackslash(c: char) {
    c == Backslash
  }

  /** `s.replace(/x/g, y)` for a one-character pattern: every occurrence of
      `from` becomes `to`, every other character stays. */
  function ReplaceAll(s: string, from: char, to: char): (r: string)
    ensures |r| == |s|
    ensures forall k :: 0 <= k < |s| ==> r[k] == (if s[k] == from then to else s[k])
  {
    if s == [] then []
    else [if s[0] == from then to else s[0]] + ReplaceAll(s[1..], from, to)
  }

  /** `s.indexOf(c)`: the first position of `c`, or -1. */
  function IndexOf(s: string, c: char): (i: int)
    ensures -1 <= i < |s|
    ensures i == -1 <==> c !in s
    ensures i >= 0 ==> s[i] == c && forall k :: 0 <= k < i ==> s[k] != c
  {
    if s == [] then -1
    else if s[0] == c then 0
    else
      var j := IndexOf(s[1..], c);
      if j == -1 then -1 else j + 1
  }

  /** `s.replace(x, y)` with a string pattern: only the first occurrence of
      `from` becomes `to`. */
  function ReplaceFirst(s: string, from: char, to: char): (r: string)
    ensures |r| == |s|
    ensures forall k :: 0 <= k < |s| ==> r[k] == (if k == IndexOf(s, from) then to else s[k])
  {
    var i := IndexOf(s, from);
    if i == -1 then s else s[..i] + [to] + s[i + 1..]
  }

  /** The dashboards' image `src`: a URL starting with "http" is used as
      is; any other path gets the server origin in front and every
      backslash turned into "/", so the path part has no backslash left. */
  function ImageSrc(url: string): (r: string)
    ensures StartsWith(url, "http") ==> r == url
    ensures !StartsWith(url, "http") ==>
      && StartsWith(r, Host) && |r| == |Host| + |url|
      && Backslash !in r[|Host|..]
      && forall k :: 0 <= k < |url| ==> r[|Host| + k] == (if url[k] == Backslash then '/' else url[k])
  {
    if StartsWith(url, "http") then url else Host + ReplaceAll(url, Backslash, '/')
  }

  /** The home page's image `src`: the same, except that only the first
      backslash of the path is turned into "/". */
  function ImageSrcFirstOnly(url: string): (r: string)
    ensures StartsWith(url, "http") ==> r == url
    ensures !StartsWith(url, "http") ==>
      && StartsWith(r, Host) && |r| == |Host| + |url|
      && forall k :: 0 <= k < |url| ==>
           r[|Host| + k] == (if k == IndexOf(url, Backslash) then '/' else url[k])
  {
    if StartsWith(url, "http") then url else Host + ReplaceFirst(url, Backslash, '/')
  }

  /** A computed `src` is an "http" URL, so computing it again changes
      nothing. */
  lemma ImageSrcIdempotent(url: string)
    ensures StartsWith(ImageSrc(url), "http")
    ensures ImageSrc(ImageSrc(url)) == ImageSrc(url)
  {
    var r := ImageSrc(url);
    if !StartsWith(url, "http") {
      assert r[..|Host|] == Host;
      assert r[..4] == Host[..4];
    }
  }

  /** On paths with at most one backslash the two normalisers agree. */
  lemma FirstOnlyAgreesOnSingleBackslash(url: string)
    requires Seqs.CountWhere(IsBackslash, url) <= 1
    ensures ImageSrcFirstOnly(url) == ImageSrc(url)
  {
    if !StartsWith(url, "http") {
      var i := IndexOf(url, Backslash);
      var a := ReplaceFirst(url, Backslash, '/');
      var b := ReplaceAll(url, Backslash, '/');
      forall k | 0 <= k < |url| ensures a[k] == b[k] {
        if url[k] == Backslash && k != i {
          Seqs.CountAtMostOneUnique(IsBackslash, url, k, i);
        }
      }
      assert a == b;
    }
  }

  /** With two backslashes the home page keeps the second one, while the
      dashboards' normaliser leaves none. */
  lemma FirstOnlyDiffersOnTwoBackslashes()
    ensures var r := ImageSrcFirstOnly("a\\b\\c"); |r| >= |Host| && Backslash in r[|Host|..]
    ensures var r := ImageSrc("a\\b\\c"); |r| >= |Host| && Backslash !in r[|Host|..]
    ensures ImageSrcFirstOnly("a\\b\\c") != ImageSrc("a\\b\\c")
  {
    var u := "a\\b\\c";
    assert !StartsWith(u, "http") by { assert u[0] != "http"[0]; }
    assert IndexOf(u, Backslash) == 1 by { assert u[1] == Backslash && u[0] != Backslash; }
    var r := ImageSrcFirstOnly(u);
    assert r[|Host| + 3] == Backslash;
    assert r[|Host|..][3] == Backslash;
  }

  /** `issue.imageURL && <img src=…/>`: an image is shown only for a
      present, non-empty path, with the given normaliser applied. */
  function ImageFor(imageURL: Option<string>, normalise: string -> string): (r: Option<string>)
    ensures r.Some? <==> Truthy(imageURL)
    ensures r.Some? ==> r.value == normalise(imageURL.value)
  {
    if Truthy(imageURL) then Some(normalise(imageURL.value)) else None
  }
}

=== FILE: js.dfy ===
/** The few pieces of JavaScript value semantics the client's logic rests on:
    a value that may be `null`/`undefined`, truthiness of strings and numbers,
    the `\s` character class, `String.prototype.trim`, the UTF-16 `length`
    of a string, and `startsWith`. */
module Js {

  /** A value that may be missing (`null` or `undefined`, both None here)
      or present. */
  datatype Option<+T> = None | Some(value: T)

  /** A property of a parsed JSON reply that should hold a string, where
      the difference between absent and `null` shows once it is turned into
      text: it is missing (`undefined`), `null`, or a string. */
  datatype JsonString = Undefined | Null | Text(text: string)

  /** `!!v` for a string that may be missing: only a present, non-empty
      string is truthy. */
  predicate Truthy(v: Option<string>) {
    v.Some? && v.value != ""
  }

  /** `!!x` for a number that may be missing; NaN is not modelled, so only
      zero and a missing value are falsy. */
  predicate TruthyNumber(v: Option<real>) {
    v.Some? && v.value != 0.0
  }

  /** The characters that JavaScript's `\s` matches and `trim` strips: the
      WhiteSpace and LineTerminator code points of ECMA-262 (tab, vertical
      tab, form feed, space, no-break space, byte order mark, the Unicode
      space separators, line feed, carriage return, line and paragraph
      separator). */
  predicate IsSpace(c: char) {
    || c == '\t' || c == '\n' || c == '\U{B}' || c == '\U{C}' || c == '\r'
    || c == ' ' || c == '\U{A0}' || c == '\U{1680}'
    || ('\U{2000}' <= c <= '\U{200A}')
    || c == '\U{2028}' || c == '\U{2029}' || c == '\U{202F}' || c == '\U{205F}'
    || c == '\U{3000}' || c == '\U{FEFF}'
  }

  /** Every character of `s` is white space. */
  predicate AllSpace(s: string) {
    forall k :: 0 <= k < |s| ==> IsSpace(s[k])
  }

  /** `s.startsWith(prefix)`. */
  predicate StartsWith(s: string, prefix: string) {
    |prefix| <= |s| && s[..|prefix|] == prefix
  }

  /** The first position at or after `i` that is not white space, or
      `|s|` when there is none. */
  function SkipSpace(s: string, i: nat): (j: nat)
    requires i <= |s|
    ensures i <= j <= |s|
    ensures forall k :: i <= k < j ==> IsSpace(s[k])
    ensures j < |s| ==> !IsSpace(s[j])
    decreases |s| - i
  {
    if i == |s| || !IsSpace(s[i]) then i else SkipSpace(s, i + 1)
  }

  /** The end of `s[lo..j]` once its trailing white space is dropped. */
  function SkipSpaceBack(s: string, lo: nat, j: nat): (e: nat)
    requires lo <= j <= |s|
    ensures lo <= e <= j
    ensures forall k :: e <= k < j ==> IsSpace(s[k])
    ensures lo < e ==> !IsSpace(s[e - 1])
    decreases j
  {
    if j == lo || !IsSpace(s[j - 1]) then j else SkipSpaceBack(s, lo, j - 1)
  }

  /** `s.trim()`: the slice `s[i..e]` where everything before `i` and from
      `e` on is white space, and the slice neither starts nor ends with
      white space. It is empty exactly when `s` is all white space. */
  function Trim(s: string): (r: string)
    ensures var i := SkipSpace(s, 0); var e := SkipSpaceBack(s, i, |s|);
      && r == s[i..e]
      && (forall k :: 0 <= k < i ==> IsSpace(s[k]))
      && (forall k :: e <= k < |s| ==> IsSpace(s[k]))
    ensures r == [] || (!IsSpace(r[0]) && !IsSpace(r[|r| - 1]))
    ensures r == [] <==> AllSpace(s)
  {
    var i := SkipSpace(s, 0);
    var e := SkipSpaceBack(s, i, |s|);
    assert i < |s| ==> !IsSpace(s[i]) && i < e;
    s[i..e]
  }

  /** A string without white space is its own trim. */
  lemma {:induction false} TrimOfSpaceFree(s: string)
    requires forall k :: 0 <= k < |s| ==> !IsSpace(s[k])
    ensures Trim(s) == s
  {
    assert SkipSpace(s, 0) == 0;
    assert SkipSpaceBack(s, 0, |s|) == |s|;
  }

  /** `s.length`: the number of UTF-16 code units. A character outside the
      Basic Multilingual Plane is stored as a surrogate pair and counts
      twice. */
  function Utf16Length(s: string): (n: nat)
    ensures |s| <= n <= 2 * |s|
  {
    if s == [] then 0
    else (if s[0] > '\U{FFFF}' then 2 else 1) + Utf16Length(s[1..])
  }

  /** The code-unit length equals the character count exactly when every
      character lies in the Basic Multilingual Plane. */
  lemma {:induction false} Utf16LengthBmp(s: string)
    ensures Utf16Length(s) == |s| <==> forall k :: 0 <= k < |s| ==> s[k] <= '\U{FFFF}'
  {
    if s != [] {
      Utf16LengthBmp(s[1..]);
      if forall k :: 0 <= k < |s| ==> s[k] <= '\U{FFFF}' {
        assert forall k :: 0 <= k < |s| - 1 ==> s[1..][k] == s[k + 1];
      } else {
        var k :| 0 <= k < |s| && s[k] > '\U{FFFF}';
        if k > 0 {
          assert s[1..][k - 1] == s[k];
        }
      }
    }
  }
}

=== FILE: login.dfy ===
/** The login page (Login.jsx): field validation, typing into a field, and
    submitting. A submit that passes validation writes the session from the
    server's reply and chooses where to navigate. */
module Login {
  import opened Js
  import Session
  import Routes

  datatype Field = Email | Password

  datatype FormData = FormData(email: string, password: string)

  /** The `errors` object: one message per field that has one. */
  type Errors = map<Field, string>

  const EmptyForm := FormData("", "")

  function FieldValue(f: FormData, which: Field): string {
    match which
    case Email => f.email
    case Password => f.password
  }

  /** No character of `s[lo..hi]` is white space. */
  predicate SpaceFree(s: string, lo: int, hi: int)
    requires 0 <= lo <= hi <= |s|
  {
    forall k :: lo <= k < hi ==> !IsSpace(s[k])
  }

  /** `s[a..e]` is a match of `\S+@\S+\.\S+` with its `@` at `p` and its
      literal `.` at `d`: three non-empty runs of non-space characters. */
  ghost predicate RegexMatchAt(s: string, a: int, p: int, d: int, e: int) {
    && 0 <= a < p && p + 1 < d && d + 1 < e <= |s|
    && s[p] == '@' && s[d] == '.'
    && SpaceFree(s, a, p) && SpaceFree(s, p + 1, d) && SpaceFree(s, d + 1, e)
  }

  /** `/\S+@\S+\.\S+/.test(s)`: the pattern is not anchored, so it matches
      when any substring of `s` matches. */
  ghost predicate MatchesEmailRegex(s: string) {
    exists a, p, d, e :: RegexMatchAt(s, a, p, d, e)
  }

  /** A direct test for the pattern at `@` position `p` and `.` position
      `d`: a non-space character before the `@`, at least one non-space
      character between the two, and a non-space character after the `.`. */
  predicate EmailShapedAt(s: string, p: int, d: int) {
    && 0 < p && p + 1 < d && d + 1 < |s|
    && s[p] == '@' && s[d] == '.'
    && !IsSpace(s[p - 1]) && SpaceFree(s, p + 1, d) && !IsSpace(s[d + 1])
  }

  /** The direct test over every position pair. */
  predicate EmailShaped(s: string) {
    exists p, d | 0 <= p < d < |s| :: EmailShapedAt(s, p, d)
  }

  /* The shortest match around a direct hit. */
  lemma ShapedGivesMatch(s: string, p: int, d: int)
    requires EmailShapedAt(s, p, d)
    ensures RegexMatchAt(s, p - 1, p, d, d + 2)
  {
  }

  /* Any match contains a direct hit at the same `@` and `.`. */
  lemma MatchGivesShaped(s: string, a: int, p: int, d: int, e: int)
    requires RegexMatchAt(s, a, p, d, e)
    ensures EmailShapedAt(s, p, d)
  {
    assert a <= p - 1 < p;
    assert d + 1 < e;
  }

  /** The direct test agrees with the regular expression on every string. */
  lemma EmailShapedIffRegex(s: string)
    ensures EmailShaped(s) <==> MatchesEmailRegex(s)
  {
    if EmailShaped(s) {
      var p, d :| 0 <= p < d < |s| && EmailShapedAt(s, p, d);
      ShapedGivesMatch(s, p, d);
    }
    if MatchesEmailRegex(s) {
      var a, p, d, e :| RegexMatchAt(s, a, p, d, e);
      MatchGivesShaped(s, a, p, d, e);
    }
  }

  /** `validate`: an empty email gives "Email is required"; a non-empty one
      that does not match the pattern gives "Email is invalid"; an empty
      password gives "Password is required". There are no other keys. */
  function Validate(f: FormData): (errs: Errors)
    ensures Email in errs <==> f.email == "" || !MatchesEmailRegex(f.email)
    ensures Email in errs ==>
      errs[Email] == (if f.email == "" then "Email is required" else "Email is invalid")
    ensures Password in errs <==> f.password == ""
    ensures Password in errs ==> errs[Password] == "Password is required"
  {
    EmailShapedIffRegex(f.email);
    var emailErr: Errors :=
      if f.email == "" then map[Email := "Email is required"]
      else if !EmailShaped(f.email) then map[Email := "Email is invalid"]
      else map[];
    if f.password == "" then emailErr[Password := "Password is required"] else emailErr
  }

  /** The form is accepted exactly when the email is present and matches
      and the password is present. */
  lemma ValidateEmptyIff(f: FormData)
    ensures Validate(f) == map[] <==> f.email != "" && MatchesEmailRegex(f.email) && f.password != ""
  {
    if Validate(f) != map[] {
      var k :| k in Validate(f);
    }
  }

  /** The two email messages exclude each other. */
  lemma EmailMessagesExclusive(f: FormData)
    ensures Email in Validate(f) ==>
      (Validate(f)[Email] == "Email is required" <==> f.email == "")
  {
  }

  /** A few sample addresses, showing that the pattern is not anchored and
      only asks for text around an `@` and a later `.`. */
  lemma EmailSamples()
    ensures EmailShaped("a@b.c")
    ensures EmailShaped("x a@b.c y")
    ensures !EmailShaped("a@b")
    ensures !EmailShaped("@b.c")
    ensures !EmailShaped("a@.c")
  {
    assert EmailShapedAt("a@b.c", 1, 3);
    assert EmailShapedAt("x a@b.c y", 3, 5);
  }

  /** The page's state: the form and the displayed errors. */
  datatype LoginView = LoginView(form: FormData, errors: Errors)

  /** `handleChange`: the named field takes the typed value and its error
      entry becomes "" (hidden); the other field and its error are kept. */
  function HandleChange(v: LoginView, which: Field, value: string): (r: LoginView)
    ensures FieldValue(r.form, which) == value
    ensures forall g :: g != which ==> FieldValue(r.form, g) == FieldValue(v.form, g)
    ensures which in r.errors && r.errors[which] == ""
    ensures forall g :: g != which ==> (g in r.errors <==> g in v.errors)
    ensures forall g :: g != which && g in v.errors ==> r.errors[g] == v.errors[g]
  {
    var form := match which
      case Email => v.form.(email := value)
      case Password => v.form.(password := value);
    LoginView(form, v.errors[which := ""])
  }

  /** The user record in the server's reply; each property may be missing,
      `null` or a string. */
  datatype UserInfo = UserInfo(name: JsonString, email: JsonString, role: JsonString)

  /** The parsed body of the login response. */
  datatype LoginReply = LoginReply(message: Option<string>, token: Option<string>, user: Option<UserInfo>)

  /** The reply carries everything the client needs: `token && message && user`. */
  predicate Accepted(reply: LoginReply) {
    Truthy(reply.token) && Truthy(reply.message) && reply.user.Some?
  }

  /** Where an accepted login sends the user. */
  function LandingPage(user: UserInfo): (p: Routes.Page)
    ensures p == Routes.AdminDashboardPage <==> user.role == Text("admin")
    ensures p != Routes.AdminDashboardPage ==> p == Routes.ReportPage
  {
    if user.role == Text("admin") then Routes.AdminDashboardPage else Routes.ReportPage
  }

  /** The result of `handleSubmit`. */
  datatype SubmitStep = SubmitStep(view: LoginView, session: Session.Store,
                                   sent: bool, navigateTo: Option<Routes.Page>)

  /** `handleSubmit`. `reply` is the parsed response, or None when the
      request or the parsing threw.
      - The errors shown become the validation result; the request is sent
        exactly when there are none.
      - The session is written, all four keys, only for a sent request
        whose reply is accepted; otherwise it is unchanged.
      - The navigation goes to the admin dashboard for an "admin" role and
        to the report page for any other role, and only after an accepted
        reply.
      - The form is cleared whenever a reply came back, accepted or not,
        and left as typed when the request threw or was never sent. */
  function Submit(v: LoginView, st: Session.Store, reply: Option<LoginReply>): (r: SubmitStep)
    ensures r.view.errors == Validate(v.form)
    ensures r.sent <==> Validate(v.form) == map[]
    ensures !(r.sent && reply.Some? && Accepted(reply.value)) ==> r.session == st && r.navigateTo == None
    ensures r.sent && reply.Some? && Accepted(reply.value) ==>
      var u := reply.value.user.value;
      && r.session == Session.WriteLogin(st, reply.value.token.value, u.name, u.email, u.role)
      && r.navigateTo == Some(LandingPage(u))
    ensures r.view.form == (if r.sent && reply.Some? then EmptyForm else v.form)
  {
    var errs := Validate(v.form);
    if errs != map[] then SubmitStep(LoginView(v.form, errs), st, false, None)
    else if reply.None? then SubmitStep(LoginView(v.form, errs), st, true, None)
    else
      var rep := reply.value;
      if Accepted(rep) then
        var u := rep.user.value;
        SubmitStep(LoginView(EmptyForm, errs),
                   Session.WriteLogin(st, rep.token.value, u.name, u.email, u.role),
                   true, Some(LandingPage(u)))
      else SubmitStep(LoginView(EmptyForm, errs), st, true, None)
  }

  /** After an accepted login every session key is present, so the token is
      never stored without a role. */
  lemma AcceptedLoginWritesAllKeys(v: LoginView, st: Session.Store, reply: LoginReply)
    requires Validate(v.form) == map[] && Accepted(reply)
    ensures Session.SessionKeys <= Submit(v, st, Some(reply)).session.Keys
    ensures Session.GetItem(Submit(v, st, Some(reply)).session, Session.TokenKey) == reply.token
  {
  }

  /** A reply with role "admin" opens the admin dashboard; a reply with any
      other role (or none) is stored as a non-admin role and the admin gate
      answers "Not Authorized". */
  lemma LoginThenAdminGate(v: LoginView, st: Session.Store, reply: LoginReply, auth: Routes.AuthState)
    requires Validate(v.form) == map[] && Accepted(reply)
    ensures var s := Submit(v, st, Some(reply)).session;
      Routes.Resolve(Routes.AdminDashboardPage, auth, s) ==
        (if reply.user.value.role == Text("admin") then Routes.Render(Routes.AdminDashboardPage)
         else Routes.NotAuthorized)
  {
    var u := reply.user.value;
    var s := Submit(v, st, Some(reply)).session;
    assert Session.GetItem(s, Session.RoleKey) == Some(Session.Stringify(u.role));
    Session.StringifyIsAdminIff(u.role);
  }
}

=== FILE: navbar.dfy ===
/** The navigation bar (Navbar.jsx): the "Civic Track" brand link, which
    menu links it offers for the role and token in the session store, and
    the mobile menu's open flag. */
module Navbar {
  import opened Js
  import Session
  import Routes

  datatype Link = Link(text: string, target: Routes.Page)

  /** The brand link beside the logo, shown for every session. */
  const BrandLink := Link("Civic Track", Routes.HomePage)

  const AdminLink := Link("Admin Dashboard", Routes.AdminDashboardPage)
  const HomeLink := Link("Home", Routes.HomePage)
  const ReportLink := Link("Report Issue", Routes.ReportPage)
  const UserDashboardLink := Link("User Dashboard", Routes.UserDashboardPage)
  const LoginLink := Link("Login", Routes.LoginPage)
  const RegisterLink := Link("Register", Routes.RegisterPage)

  /** The menu links for a stored role and token: the admin dashboard alone for
      role "admin", whatever the token; for any other role Home and Report
      Issue first, then User Dashboard with a truthy token, or Login and
      Register without one, never both. */
  function Links(role: Option<string>, token: Option<string>): (ls: seq<Link>)
    ensures role == Some("admin") ==> ls == [AdminLink]
    ensures role != Some("admin") ==> |ls| == (if Truthy(token) then 3 else 4)
    ensures role != Some("admin") ==> ls[0] == HomeLink && ls[1] == ReportLink
    ensures role != Some("admin") && !Truthy(token) ==> ls[2] == LoginLink
    ensures role != Some("admin") ==> (UserDashboardLink in ls <==> Truthy(token))
    ensures role != Some("admin") ==> (LoginLink in ls <==> !Truthy(token))
    ensures role != Some("admin") ==> (RegisterLink in ls <==> !Truthy(token))
    ensures AdminLink in ls <==> role == Some("admin")
  {
    if role == Some("admin") then [AdminLink]
    else [HomeLink, ReportLink] + (if Truthy(token) then [UserDashboardLink] else [LoginLink, RegisterLink])
  }

  /** The menu links as read from the session store. */
  function LinksFor(st: Session.Store): seq<Link> {
    Links(Session.GetItem(st, Session.RoleKey), Session.GetItem(st, Session.TokenKey))
  }

  /** Every link the bar shows: the brand link, then the menu links. */
  function BarLinks(st: Session.Store): (ls: seq<Link>)
    ensures |ls| == |LinksFor(st)| + 1
    ensures ls[0] == BrandLink && ls[1..] == LinksFor(st)
    ensures BrandLink !in LinksFor(st)
  {
    [BrandLink] + LinksFor(st)
  }

  /** The mobile menu. */
  datatype Menu = Menu(isOpen: bool)

  /** The menu button flips the flag. */
  function Toggle(m: Menu): (r: Menu)
    ensures r.isOpen != m.isOpen
  {
    Menu(!m.isOpen)
  }

  /** Following a menu link closes the menu; the brand link has no click
      handler and leaves the menu as it was. */
  function FollowLink(m: Menu, st: Session.Store, l: Link): (r: Menu)
    requires l in BarLinks(st)
    ensures l in LinksFor(st) ==> !r.isOpen
    ensures l == BrandLink ==> r == m
  {
    if l == BrandLink then m else Menu(false)
  }

  lemma ToggleTwice(m: Menu)
    ensures Toggle(Toggle(m)) == m
  {
  }

  /** A session logged in as admin: the bar shows the brand link and the
      admin menu link, and each of them opens its page. */
  lemma AdminLinksOpen(st: Session.Store, auth: Routes.AuthState)
    requires Session.GetItem(st, Session.RoleKey) == Some("admin")
    requires Truthy(Session.GetItem(st, Session.TokenKey))
    ensures BarLinks(st) == [BrandLink, AdminLink]
    ensures forall l :: l in BarLinks(st) ==> Routes.Resolve(l.target, auth, st) == Routes.Render(l.target)
  {
  }

  /** After the admin dashboard's logout the menu offers the anonymous
      links after the brand link, and the admin dashboard redirects to
      /login. */
  lemma AfterAdminLogout(st: Session.Store, auth: Routes.AuthState)
    ensures LinksFor(Session.AdminLogout(st)) == [HomeLink, ReportLink, LoginLink, RegisterLink]
    ensures BarLinks(Session.AdminLogout(st)) == [BrandLink, HomeLink, ReportLink, LoginLink, RegisterLink]
    ensures Routes.Resolve(Routes.AdminDashboardPage, auth, Session.AdminLogout(st)) == Routes.RedirectToLogin
  {
  }

  /** The user dashboard's logout leaves `userRole`: when it held "admin",
      the menu still offers only the admin dashboard, which now redirects
      to /login, and besides it the bar shows just the brand link; no Login
      link is shown. */
  lemma AfterUserLogoutOfAdminSession(st: Session.Store, auth: Routes.AuthState)
    requires Session.GetItem(st, Session.RoleKey) == Some("admin")
    ensures LinksFor(Session.UserLogout(st)) == [AdminLink]
    ensures BarLinks(Session.UserLogout(st)) == [BrandLink, AdminLink]
    ensures Routes.Resolve(Routes.AdminDashboardPage, auth, Session.UserLogout(st)) == Routes.RedirectToLogin
  {
  }
}

=== FILE: report.dfy ===
/** The issue report page (ReportIssue.jsx). It keeps a draft record that
    text inputs, the image picker, a map click, device geolocation and a
    place search each overwrite in part. A submit sends the draft only when
    validation finds nothing missing. The map, the geolocation API and the
    place-search service are outside the model: what they deliver is an
    argument. */
module ReportIssue {
  import opened Js
  import Routes

  /** The categories offered by the select, in order. */
  const Categories: seq<string> :=
    ["Garbage", "Water Leak", "Road Safety", "Pothole", "Streetlight", "Other"]

  /** The default map centre. */
  const DefaultLatitude: real := 28.6448
  const DefaultLongitude: real := 77.216721

  /** A picked image file; only its presence matters here. */
  datatype ImageFile = ImageFile(name: string, size: nat)

  /** The draft issue. */
  datatype Form = Form(title: string, description: string, category: string,
                       image: Option<ImageFile>, latitude: real, longitude: real)

  /** The form the page starts with and resets to after a successful submit. */
  const InitialForm := Form("", "", Categories[0], None, DefaultLatitude, DefaultLongitude)

  /** The keys of the `errors` object. */
  datatype Field = Title | Description | Category | Image | Location

  type Errors = map<Field, string>

  /** `validate`: a message for each of title, description, category and
      image that is empty or missing, and one for the location when either
      coordinate is falsy, so a zero coordinate counts as missing. */
  function Validate(f: Form): (errs: Errors)
    ensures Title in errs <==> f.title == ""
    ensures Description in errs <==> f.description == ""
    ensures Category in errs <==> f.category == ""
    ensures Image in errs <==> f.image.None?
    ensures Location in errs <==> f.latitude == 0.0 || f.longitude == 0.0
    ensures Title in errs ==> errs[Title] == "Title is required"
    ensures Description in errs ==> errs[Description] == "Description is required"
    ensures Category in errs ==> errs[Category] == "Category is required"
    ensures Image in errs ==> errs[Image] == "Please upload an image"
    ensures Location in errs ==> errs[Location] == "Location is required"
  {
    var e0: Errors := map[];
    var e1 := if f.title == "" then e0[Title := "Title is required"] else e0;
    var e2 := if f.description == "" then e1[Description := "Description is required"] else e1;
    var e3 := if f.category == "" then e2[Category := "Category is required"] else e2;
    var e4 := if f.image.None? then e3[Image := "Please upload an image"] else e3;
    if f.latitude == 0.0 || f.longitude == 0.0 then e4[Location := "Location is required"] else e4
  }

  /** A draft passes validation exactly when nothing is missing. */
  predicate Complete(f: Form) {
    f.title != "" && f.description != "" && f.category != "" && f.image.Some?
    && f.latitude != 0.0 && f.longitude != 0.0
  }

  lemma ValidateEmptyIffComplete(f: Form)
    ensures Validate(f) == map[] <==> Complete(f)
  {
    var errs := Validate(f);
    if f.title == "" { assert Title in errs; }
    else if f.description == "" { assert Description in errs; }
    else if f.category == "" { assert Category in errs; }
    else if f.image.None? { assert Image in errs; }
    else if !Complete(f) { assert Location in errs; }
  }

  /** The text inputs and the category select, by their `name`. */
  datatype TextInput = TitleInput | DescriptionInput | CategorySelect

  function TextValue(f: Form, which: TextInput): string {
    match which
    case TitleInput => f.title
    case DescriptionInput => f.description
    case CategorySelect => f.category
  }

  /** Two drafts agree on everything but the text fields. */
  predicate SameExceptText(f: Form, g: Form) {
    f.image == g.image && f.latitude == g.latitude && f.longitude == g.longitude
  }

  /** Two drafts agree on everything but the coordinates. */
  predicate SameExceptLocation(f: Form, g: Form) {
    && f.title == g.title && f.description == g.description
    && f.category == g.category && f.image == g.image
  }

  /** `handleChange`: the named input takes the typed value; every other
      field of the draft is kept. */
  function HandleChange(f: Form, which: TextInput, value: string): (r: Form)
    ensures TextValue(r, which) == value
    ensures forall t :: t != which ==> TextValue(r, t) == TextValue(f, t)
    ensures SameExceptText(r, f)
  {
    match which
    case TitleInput => f.(title := value)
    case DescriptionInput => f.(description := value)
    case CategorySelect => f.(category := value)
  }

  /** `handleImageChange`: the picked file, or none when the picker was
      emptied, replaces the image; nothing else changes. */
  function HandleImageChange(f: Form, file: Option<ImageFile>): (r: Form)
    ensures r.image == file
    ensures r.title == f.title && r.description == f.description && r.category == f.category
    ensures r.latitude == f.latitude && r.longitude == f.longitude
  {
    f.(image := file)
  }

  /** `setLocation`, called by `LocationPicker` on a map click: both
      coordinates are overwritten and the rest of the draft is kept. */
  function SetLocation(f: Form, latitude: real, longitude: real): (r: Form)
    ensures r.latitude == latitude && r.longitude == longitude
    ensures SameExceptLocation(r, f)
  {
    f.(latitude := latitude, longitude := longitude)
  }

  /** What the browser's geolocation capability delivers. */
  datatype GeoResult = Unsupported | Denied | Position(latitude: real, longitude: real)

  /** The toast shown after a geolocation attempt. */
  datatype Notice = Success(text: string) | Failure(text: string)

  datatype DetectStep = DetectStep(form: Form, notice: Notice)

  /** `handleDetectLocation`: a position overwrites both coordinates; a
      refusal or a missing capability leaves the draft unchanged and
      reports an error. */
  function DetectLocation(f: Form, g: GeoResult): (r: DetectStep)
    ensures g.Position? ==> r.form == SetLocation(f, g.latitude, g.longitude)
    ensures !g.Position? ==> r.form == f
    ensures r.notice.Success? <==> g.Position?
  {
    match g
    case Position(lat, lon) => DetectStep(SetLocation(f, lat, lon), Success("Location fetched!"))
    case Denied =>
      DetectStep(f, Failure("Unable to fetch location. Please allow location access in your browser."))
    case Unsupported => DetectStep(f, Failure("Geolocation is not supported by your browser."))
  }

  /** A candidate from the place-search service, after `parseFloat`. */
  datatype Place = Place(lat: real, lon: real, displayName: string)

  /** The search box and its dropdown of candidates. */
  datatype Search = Search(text: string, results: seq<Place>)

  datatype SearchStep = SearchStep(search: Search, lookedUp: bool)

  /** `handleSearch`: the box always shows what was typed. Input whose
      trimmed length, in UTF-16 code units, is below 3 clears the results
      without any lookup;
      otherwise the service is asked, and its answer (None when it failed)
      becomes the results, with a failure giving none. */
  function HandleSearch(input: string, answer: Option<seq<Place>>): (r: SearchStep)
    ensures r.search.text == input
    ensures r.lookedUp <==> Utf16Length(Trim(input)) >= 3
    ensures !r.lookedUp ==> r.search.results == []
    ensures r.lookedUp ==> r.search.results == (if answer.Some? then answer.value else [])
  {
    if Utf16Length(Trim(input)) < 3 then SearchStep(Search(input, []), false)
    else SearchStep(Search(input, if answer.Some? then answer.value else []), true)
  }

  /** Input made only of white space never reaches the service. */
  lemma BlankSearchNeverLooksUp(input: string, answer: Option<seq<Place>>)
    requires AllSpace(input)
    ensures !HandleSearch(input, answer).lookedUp
    ensures HandleSearch(input, answer).search.results == []
  {
  }

  /** Three or more characters with no white space always do. */
  lemma SpaceFreeSearchLooksUp(input: string, answer: Option<seq<Place>>)
    requires |input| >= 3 && forall k :: 0 <= k < |input| ==> !IsSpace(input[k])
    ensures HandleSearch(input, answer).lookedUp
  {
    TrimOfSpaceFree(input);
  }

  /** The rule counts code units, not characters: two emoji outside the
      Basic Multilingual Plane are four code units and do reach the
      service, while two characters inside it do not. */
  lemma TwoEmojiSearchLooksUp(answer: Option<seq<Place>>)
    ensures HandleSearch("\U{1F600}\U{1F600}", answer).lookedUp
    ensures !HandleSearch("ab", answer).lookedUp
  {
    TrimOfSpaceFree("\U{1F600}\U{1F600}");
    assert Utf16Length("\U{1F600}\U{1F600}") == 4 by {
      assert "\U{1F600}\U{1F600}"[1..] == "\U{1F600}";
      assert "\U{1F600}"[1..] == "";
    }
    TrimOfSpaceFree("ab");
  }

  datatype PickStep = PickStep(form: Form, search: Search)

  /** `handleResultClick`: both coordinates come from the place, the box
      shows its display name, the dropdown empties, and the other fields of
      the draft are kept. */
  function PickResult(f: Form, place: Place): (r: PickStep)
    ensures r.form.latitude == place.lat && r.form.longitude == place.lon
    ensures SameExceptLocation(r.form, f)
    ensures r.search == Search(place.displayName, [])
  {
    PickStep(SetLocation(f, place.lat, place.lon), Search(place.displayName, []))
  }

  /** The multipart body and the header of the create request. */
  datatype Payload = Payload(title: string, description: string, category: string,
                             image: ImageFile, latitude: real, longitude: real,
                             authorization: string)

  /** How the create request ended: a 2xx reply, another reply, or a thrown
      request/parse. */
  datatype Reply = Created | Refused | Threw

  datatype SubmitStep = SubmitStep(form: Form, errors: Errors, sent: Option<Payload>,
                                   navigateTo: Option<Routes.Page>)

  /** The `Authorization` header; a missing token is interpolated as "null". */
  function BearerHeader(token: Option<string>): (h: string)
    ensures StartsWith(h, "Bearer ")
    ensures token.Some? ==> h[|"Bearer "|..] == token.value
    ensures token.None? ==> h[|"Bearer "|..] == "null"
  {
    "Bearer " + (if token.Some? then token.value else "null")
  }

  /** `handleSubmit`: the errors shown become the validation result; the
      request goes out only when there are none, carrying exactly the
      draft's fields; after a `Created` reply the draft is reset to the
      initial form and the page moves on to the user dashboard, and
      otherwise the draft is kept and the page stays. */
  function Submit(f: Form, token: Option<string>, reply: Reply): (r: SubmitStep)
    ensures r.errors == Validate(f)
    ensures r.sent.Some? <==> Complete(f)
    ensures r.sent.Some? ==> var p := r.sent.value;
      && p.title == f.title && p.description == f.description && p.category == f.category
      && Some(p.image) == f.image && p.latitude == f.latitude && p.longitude == f.longitude
      && p.authorization == BearerHeader(token)
    ensures r.form == (if r.sent.Some? && reply == Created then InitialForm else f)
    ensures r.navigateTo.Some? <==> r.sent.Some? && reply == Created
    ensures r.navigateTo.Some? ==> r.navigateTo.value == Routes.UserDashboardPage
  {
    var errs := Validate(f);
    ValidateEmptyIffComplete(f);
    if errs != map[] then SubmitStep(f, errs, None, None)
    else
      var p := Payload(f.title, f.description, f.category, f.image.value,
                       f.latitude, f.longitude, BearerHeader(token));
      if reply == Created then SubmitStep(InitialForm, errs, Some(p), Some(Routes.UserDashboardPage))
      else SubmitStep(f, errs, Some(p), None)
  }

  /** The initial draft holds the first category and the default centre,
      has empty text and no image, and is refused with exactly the title,
      description and image messages. */
  lemma InitialFormShape()
    ensures InitialForm.category == "Garbage" && InitialForm.image == None
    ensures InitialForm.latitude == DefaultLatitude && InitialForm.longitude == DefaultLongitude
    ensures Validate(InitialForm).Keys == {Title, Description, Image}
  {
  }

  /** A submit after success restores exactly the initial draft, and
      submitting it again sends nothing. */
  lemma ResetIsInitial(f: Form, token: Option<string>)
    requires Complete(f)
    ensures Submit(f, token, Created).form == InitialForm
    ensures Submit(InitialForm, token, Created).sent == None
  {
  }

  /** Every way of choosing a location leaves the text fields and the image
      alone, and the last one applied wins. */
  lemma LastLocationWins(f: Form, lat1: real, lon1: real, place: Place)
    ensures PickResult(SetLocation(f, lat1, lon1), place).form == PickResult(f, place).form
    ensures SetLocation(PickResult(f, place).form, lat1, lon1) == SetLocation(f, lat1, lon1)
  {
  }
}

=== FILE: routes.dfy ===
/** The route table of App.jsx and its two gates. `PrivateRoute` trusts the
    `isAuthLoading`/`isAuthenticated` flags that a session-refresh component
    sets; `PrivateRouteAdmin` reads the token and the role from the session
    store on every render. */
module Routes {
  import opened Js
  import Session

  /** The pages of the route table. */
  datatype Page = HomePage | LoginPage | RegisterPage | ReportPage
                | UserDashboardPage | AdminDashboardPage

  /** The path each page is mounted at. */
  function Path(p: Page): string {
    match p
    case HomePage => "/"
    case LoginPage => "/login"
    case RegisterPage => "/register"
    case ReportPage => "/report"
    case UserDashboardPage => "/user/dashboard"
    case AdminDashboardPage => "/admin/dashboard"
  }

  /** The two authentication flags App keeps in component state. */
  datatype AuthState = AuthState(isAuthLoading: bool, isAuthenticated: bool)

  /** What a route shows. */
  datatype View = Render(page: Page) | RedirectToLogin | NotAuthorized | LoadingPlaceholder

  /** How a route is protected. */
  datatype Guard = Open | UserOnly | AdminOnly

  /** `PrivateRoute`: a placeholder while authentication is loading, then
      the page exactly when authenticated, otherwise a redirect to /login.
      It never answers "Not Authorized". */
  function PrivateRoute(auth: AuthState, page: Page): (v: View)
    ensures v == LoadingPlaceholder <==> auth.isAuthLoading
    ensures v == Render(page) <==> !auth.isAuthLoading && auth.isAuthenticated
    ensures v == RedirectToLogin <==> !auth.isAuthLoading && !auth.isAuthenticated
    ensures v != NotAuthorized
  {
    if auth.isAuthLoading then LoadingPlaceholder
    else if auth.isAuthenticated then Render(page)
    else RedirectToLogin
  }

  /** `PrivateRouteAdmin`: without a truthy token a redirect to /login,
      whatever the role; with one, the page exactly when the stored role is
      "admin" and "Not Authorized" otherwise (a missing role included). It
      never shows a loading placeholder. */
  function PrivateRouteAdmin(st: Session.Store, page: Page): (v: View)
    ensures v == RedirectToLogin <==> !Truthy(Session.GetItem(st, Session.TokenKey))
    ensures v == Render(page) <==>
      Truthy(Session.GetItem(st, Session.TokenKey)) && Session.GetItem(st, Session.RoleKey) == Some("admin")
    ensures v == NotAuthorized <==>
      Truthy(Session.GetItem(st, Session.TokenKey)) && Session.GetItem(st, Session.RoleKey) != Some("admin")
    ensures v != LoadingPlaceholder
  {
    var token := Session.GetItem(st, Session.TokenKey);
    var role := Session.GetItem(st, Session.RoleKey);
    if !Truthy(token) then RedirectToLogin
    else if role != Some("admin") then NotAuthorized
    else Render(page)
  }

  /** Which gate the route table puts in front of each page. */
  function GuardOf(p: Page): Guard {
    match p
    case UserDashboardPage => UserOnly
    case AdminDashboardPage => AdminOnly
    case _ => Open
  }

  /** What navigating to `p` shows, given App's flags and the session store. */
  function Resolve(p: Page, auth: AuthState, st: Session.Store): (v: View)
    ensures GuardOf(p) == Open ==> v == Render(p)
    ensures GuardOf(p) == UserOnly ==> v == PrivateRoute(auth, p)
    ensures GuardOf(p) == AdminOnly ==> v == PrivateRouteAdmin(st, p)
  {
    match GuardOf(p)
    case Open => Render(p)
    case UserOnly => PrivateRoute(auth, p)
    case AdminOnly => PrivateRouteAdmin(st, p)
  }

  /** Whatever the route, the only page a route can show is its own. */
  lemma ResolveShowsOnlyItsPage(p: Page, q: Page, auth: AuthState, st: Session.Store)
    requires Resolve(p, auth, st) == Render(q)
    ensures q == p
  {
  }

  /** The paths of the route table are pairwise distinct. */
  lemma PathsDistinct(p: Page, q: Page)
    requires p != q
    ensures Path(p) != Path(q)
  {
  }

  /** "/", "/login", "/register" and "/report" render their page whatever
      the session. */
  lemma OpenRoutesAlwaysRender(auth: AuthState, st: Session.Store)
    ensures Resolve(HomePage, auth, st) == Render(HomePage)
    ensures Resolve(LoginPage, auth, st) == Render(LoginPage)
    ensures Resolve(RegisterPage, auth, st) == Render(RegisterPage)
    ensures Resolve(ReportPage, auth, st) == Render(ReportPage)
  {
  }

  /** The admin gate ignores App's authentication flags; the user gate
      ignores the session store, the role included. */
  lemma GatesIgnoreOtherInputs(a1: AuthState, a2: AuthState, s1: Session.Store, s2: Session.Store)
    ensures Resolve(AdminDashboardPage, a1, s1) == Resolve(AdminDashboardPage, a2, s1)
    ensures Resolve(UserDashboardPage, a1, s1) == Resolve(UserDashboardPage, a1, s2)
  {
  }

  /** A session whose role is anything but "admin" (absent, "user", or any
      other text) never reaches the admin dashboard. */
  lemma NonAdminNeverSeesAdminPage(auth: AuthState, st: Session.Store)
    requires Session.GetItem(st, Session.RoleKey) != Some("admin")
    ensures Resolve(AdminDashboardPage, auth, st) != Render(AdminDashboardPage)
    ensures Resolve(AdminDashboardPage, auth, st) in {RedirectToLogin, NotAuthorized}
  {
  }
}

=== FILE: seqs.dfy ===
/** Order-preserving filtering of sequences, the one operation on issue
    lists that drops entries (`Array.prototype.filter`, and the
    `cond ? <Marker/> : null` pattern that drops entries while rendering). */
module Seqs {

  /** The elements of `s` that satisfy `keep`, in their original order. */
  function Filter<T(!new)>(keep: T -> bool, s: seq<T>): (r: seq<T>)
    ensures |r| <= |s|
    ensures forall x :: x in r <==> x in s && keep(x)
  {
    if s == [] then []
    else if keep(s[0]) then [s[0]] + Filter(keep, s[1..])
    else Filter(keep, s[1..])
  }

  /** How many elements of `s` satisfy `p`. */
  function CountWhere<T(!new)>(p: T -> bool, s: seq<T>): (n: nat)
    ensures n <= |s|
    ensures n == 0 <==> forall x :: x in s ==> !p(x)
  {
    if s == [] then 0
    else (if p(s[0]) then 1 else 0) + CountWhere(p, s[1..])
  }

  /** `r` can be obtained from `s` by deleting elements, without reordering. */
  ghost predicate Subsequence<T>(r: seq<T>, s: seq<T>)
    decreases |s|
  {
    if r == [] then true
    else if s == [] then false
    else (r[0] == s[0] && Subsequence(r[1..], s[1..])) || Subsequence(r, s[1..])
  }

  /** Filtering distributes over concatenation: the kept elements of a
      prefix come before the kept elements of what follows. */
  lemma {:induction false} FilterAppend<T(!new)>(keep: T -> bool, a: seq<T>, b: seq<T>)
    ensures Filter(keep, a + b) == Filter(keep, a) + Filter(keep, b)
  {
    if a == [] {
      assert a + b == b;
    } else {
      assert (a + b)[1..] == a[1..] + b;
      FilterAppend(keep, a[1..], b);
    }
  }

  /** Filtering keeps exactly as many elements as satisfy the predicate. */
  lemma {:induction false} FilterLength<T(!new)>(keep: T -> bool, s: seq<T>)
    ensures |Filter(keep, s)| == CountWhere(keep, s)
  {
    if s != [] {
      FilterLength(keep, s[1..]);
    }
  }

  /** The elements that pass and the elements that fail a test make up the
      whole sequence. */
  lemma {:induction false} CountSplit<T(!new)>(p: T -> bool, q: T -> bool, s: seq<T>)
    requires forall x :: q(x) == !p(x)
    ensures CountWhere(p, s) + CountWhere(q, s) == |s|
  {
    if s != [] {
      CountSplit(p, q, s[1..]);
    }
  }

  /** The result of a filter is a subsequence of its input: nothing is
      reordered. */
  lemma {:induction false} FilterIsSubsequence<T(!new)>(keep: T -> bool, s: seq<T>)
    ensures Subsequence(Filter(keep, s), s)
  {
    if s != [] {
      FilterIsSubsequence(keep, s[1..]);
    }
  }

  /** Filtering twice with the same test is filtering once. */
  lemma {:induction false} FilterIdempotent<T(!new)>(keep: T -> bool, s: seq<T>)
    ensures Filter(keep, Filter(keep, s)) == Filter(keep, s)
  {
    if s != [] {
      FilterIdempotent(keep, s[1..]);
    }
  }

  /** A filter that rejects nothing returns its input unchanged. */
  lemma {:induction false} FilterKeepsAll<T(!new)>(keep: T -> bool, s: seq<T>)
    requires forall x :: x in s ==> keep(x)
    ensures Filter(keep, s) == s
  {
    if s != [] {
      FilterKeepsAll(keep, s[1..]);
    }
  }

  /** When at most one element satisfies `p`, any two positions that do are
      the same position. */
  lemma {:induction false} CountAtMostOneUnique<T(!new)>(p: T -> bool, s: seq<T>, i: int, j: int)
    requires CountWhere(p, s) <= 1
    requires 0 <= i < |s| && 0 <= j < |s| && p(s[i]) && p(s[j])
    ensures i == j
  {
    if i > 0 && j > 0 {
      CountAtMostOneUnique(p, s[1..], i - 1, j - 1);
    }
  }
}

=== FILE: session.dfy ===
/** The browser session: `localStorage` as a map from keys to strings. The
    client uses four fixed keys. It writes them at login (Login.jsx), reads
    them in the route gate, the navigation bar and the dashboards, and
    removes them at logout. Each dashboard has its own logout, and the two
    remove different keys. */
module Session {
  import opened Js

  type Store = map<string, string>

  const TokenKey := "token"
  const UserKey := "loggedInUser"
  const EmailKey := "userEmail"
  const RoleKey := "userRole"

  /** The four keys the client owns. */
  const SessionKeys: set<string> := {TokenKey, UserKey, EmailKey, RoleKey}

  /** `localStorage.getItem(k)`: the stored string, or null. */
  function GetItem(st: Store, k: string): (v: Option<string>)
    ensures v.Some? <==> k in st
    ensures v.Some? ==> v.value == st[k]
  {
    if k in st then Some(st[k]) else None
  }

  /** `String(v)` as applied by `setItem`: a missing property of the login
      reply is stored as the text "undefined" and a `null` one as "null". */
  function Stringify(v: JsonString): string {
    match v
    case Undefined => "undefined"
    case Null => "null"
    case Text(s) => s
  }

  /** A stored value reads "admin" exactly when the reply held the string
      "admin": neither `undefined` nor `null` is stored as that text. */
  lemma StringifyIsAdminIff(v: JsonString)
    ensures Stringify(v) == "admin" <==> v == Text("admin")
  {
  }

  /** The four `setItem` calls of a successful login. */
  function WriteLogin(st: Store, token: string, name: JsonString,
                      email: JsonString, role: JsonString): (r: Store)
    ensures r.Keys == st.Keys + SessionKeys
    ensures r[TokenKey] == token && r[UserKey] == Stringify(name)
    ensures r[EmailKey] == Stringify(email) && r[RoleKey] == Stringify(role)
    ensures forall k :: k in st && k !in SessionKeys ==> r[k] == st[k]
  {
    st[TokenKey := token][UserKey := Stringify(name)][EmailKey := Stringify(email)][RoleKey := Stringify(role)]
  }

  /** The admin dashboard's logout: all four session keys are removed and
      every other entry of the store is kept. */
  function AdminLogout(st: Store): (r: Store)
    ensures r.Keys == st.Keys - SessionKeys
    ensures forall k :: k in r ==> r[k] == st[k]
  {
    st - SessionKeys
  }

  /** The user dashboard's logout: token, name and email are removed, but
      `userRole` is left in place. */
  function UserLogout(st: Store): (r: Store)
    ensures r.Keys == st.Keys - {TokenKey, UserKey, EmailKey}
    ensures forall k :: k in r ==> r[k] == st[k]
    ensures GetItem(r, RoleKey) == GetItem(st, RoleKey)
  {
    st - {TokenKey, UserKey, EmailKey}
  }

  /** Logging in and then out from the admin dashboard leaves no trace of
      the session and restores every unrelated entry. */
  lemma AdminLogoutUndoesLogin(st: Store, token: string, name: JsonString,
                               email: JsonString, role: JsonString)
    ensures AdminLogout(WriteLogin(st, token, name, email, role)) == AdminLogout(st)
    ensures forall k :: k in SessionKeys ==> GetItem(AdminLogout(WriteLogin(st, token, name, email, role)), k) == None
  {
  }

  /** Logging in and then out from the user dashboard still leaves the
      role written at login. */
  lemma UserLogoutKeepsLoginRole(st: Store, token: string, name: JsonString,
                                 email: JsonString, role: JsonString)
    ensures var r := UserLogout(WriteLogin(st, token, name, email, role));
      && GetItem(r, TokenKey) == None
      && GetItem(r, RoleKey) == Some(Stringify(role))
  {
  }

  /** Both logouts are idempotent, and the admin one subsumes the user one. */
  lemma LogoutsIdempotent(st: Store)
    ensures AdminLogout(AdminLogout(st)) == AdminLogout(st)
    ensures UserLogout(UserLogout(st)) == UserLogout(st)
    ensures AdminLogout(UserLogout(st)) == AdminLogout(st)
  {
  }
}

=== FILE: user_dashboard.dfy ===
/** The user dashboard (UserDashboard.jsx): the list of the user's own
    issues as it is rendered. The fetch of that list is outside the model;
    the list is an argument. Its logout is `Session.UserLogout`. */
module UserDashboard {
  import opened Js
  import Issues
  import Seqs

  /** What one list item shows. */
  datatype Card = Card(id: string, title: string, description: string, category: string,
                       status: string, colour: Issues.StatusColour,
                       image: Option<string>, resolution: Option<string>)

  /** An entry of the rendered list. */
  datatype Entry = NoIssuesYet | IssueCard(card: Card)

  /** One issue's card: the shared status colour, the image normalised with
      every backslash replaced, and the "Admin Resolution" block exactly
      when the notes are non-empty. */
  function CardOf(issue: Issues.Issue): (c: Card)
    ensures c.id == issue.id && c.status == issue.status
    ensures c.title == issue.title && c.description == issue.description && c.category == issue.category
    ensures c.colour == Issues.StatusColourOf(issue.status)
    ensures c.image.Some? <==> Truthy(issue.imageURL)
    ensures c.image.Some? ==> c.image.value == Issues.ImageSrc(issue.imageURL.value)
    ensures c.resolution.Some? <==> Truthy(issue.resolutionNotes)
    ensures c.resolution.Some? ==> c.resolution == issue.resolutionNotes
  {
    Card(issue.id, issue.title, issue.description, issue.category, issue.status,
         Issues.StatusColourOf(issue.status),
         Issues.ImageFor(issue.imageURL, Issues.ImageSrc),
         if Truthy(issue.resolutionNotes) then issue.resolutionNotes else None)
  }

  /** One card per issue, in order. */
  function Cards(issues: seq<Issues.Issue>): (v: seq<Entry>)
    ensures |v| == |issues|
    ensures forall k :: 0 <= k < |issues| ==> v[k] == IssueCard(CardOf(issues[k]))
  {
    seq(|issues|, k requires 0 <= k < |issues| => IssueCard(CardOf(issues[k])))
  }

  /** The rendered list: the "No issues reported yet." placeholder alone for
      an empty list, otherwise one card per issue, in order. */
  function View(issues: seq<Issues.Issue>): (v: seq<Entry>)
    ensures NoIssuesYet in v <==> |issues| == 0
    ensures |issues| == 0 ==> v == [NoIssuesYet]
    ensures |issues| > 0 ==> |v| == |issues|
    ensures |issues| > 0 ==> forall k :: 0 <= k < |issues| ==> v[k] == IssueCard(CardOf(issues[k]))
  {
    if |issues| == 0 then [NoIssuesYet] else Cards(issues)
  }

  /** An entry that shows the "Admin Resolution" block. */
  predicate ShowsResolution(e: Entry) {
    e.IssueCard? && e.card.resolution.Some?
  }

  /** An issue whose notes are non-empty. */
  predicate HasNotes(issue: Issues.Issue) {
    Truthy(issue.resolutionNotes)
  }

  /** Card by card, a resolution block appears exactly for an issue with
      notes. */
  lemma {:induction false} CardsShowNotes(issues: seq<Issues.Issue>)
    ensures Seqs.CountWhere(ShowsResolution, Cards(issues)) == Seqs.CountWhere(HasNotes, issues)
  {
    if issues != [] {
      assert Cards(issues)[1..] == Cards(issues[1..]);
      CardsShowNotes(issues[1..]);
    }
  }

  /** The rendered list shows exactly as many resolution blocks as there
      are issues with notes; in particular none at all when no issue has
      notes. */
  lemma ResolutionBlocksMatchNotes(issues: seq<Issues.Issue>)
    ensures Seqs.CountWhere(ShowsResolution, View(issues)) == Seqs.CountWhere(HasNotes, issues)
  {
    if |issues| > 0 {
      CardsShowNotes(issues);
    }
  }
}
